=== FILE: README.md ===
# Local video downloader backend: job orchestration in Dafny

This project models the backend of a local video downloader. A client
submits a video URL with optional trim times and an optional crop
rectangle. The server registers a task, then a background job downloads
the video with yt-dlp and, when an edit is asked for, edits it with
FFmpeg. The client polls the task's status and finally fetches the file,
which the server deletes shortly after delivery.

The model covers:
- the in-memory task store (`tasks_status`, `get_task`, `update_task`);
- the downloader's progress hook, result-path lookup, Windows file-lock
  recovery and failure recording;
- the FFmpeg plan builder and its error translation;
- the background job;
- the three endpoints `POST /api/download`, `GET /api/status/{id}` and
  `GET /api/file/{id}`.

Files, one module each:
- `wrappers.dfy`: `Option` and `Result`.
- `text.dfy`: the Python string and path operations the backend relies on: truthiness of an optional string, `startswith`, `endswith`, `in`, `str.replace`, and POSIX `os.path.join` / `os.path.splitext`.
- `models.dfy`: the request bodies.
- `state.dfy`: the task store, a class holding the task map. It also keeps a ghost log of every `update_task` call. `Replay` folds a list of calls over a map, so each stateful method states its new store as `Replay(old store, the calls it made)`.
- `files.dfy`: the file system as the set of existing paths. Rename and removal take a flag saying whether the operating system allows them.
- `downloader.dfy`: `backend/services/downloader.py`.
- `processor.dfy`: `backend/services/processor.py`.
- `app.dfy`: `backend/main.py`.

External tools are parameters:
- yt-dlp is the hook events it emits, plus either the file name it reports or the text of the exception it raises;
- the directory walk is a list of (directory, file names) in walk order;
- FFmpeg is one of three runs: finished (writing its output or not), binary missing, or failed with stderr and a description.

The background job is specified in two halves. The first half is values: `App.Download` gives what the download step leaves, and then `App.JobOutcome`, `App.JobFiles` and `App.JobWrites` give what the job delivers, the files it leaves and the store writes it makes. The second half is the imperative method `App.BackgroundDownloadAndProcess`, which is proved to produce exactly those values. Lemmas then state what they mean for the task's record, the files, and the file endpoint.

The model keeps these behaviours of the code:
- Statuses are `queued`, `downloading`, `processing`, `completed` and `failed`.
- Progress is not monotonic. With an edit, the hook's "finished" event stores `processing`/100 and the job then stores `processing`/50 (`App.ProgressCanDrop`).
- `get_task` on an unknown id inserts a queued record rather than reporting "not found". Only the two read endpoints check membership first.
- A failed download is recorded as failed twice: once by the downloader and once by the job.
- A failure stores progress 0, the default of `update_task`.
- An exception with an empty message leaves the error field unset, because only truthy values are stored.

## Model

| member | source | states |
|---|---|---|
| Text.ReplaceAll | backend/services/processor.py:17 | `str.replace`: every non-overlapping occurrence, scanning from the left, is replaced. |
| Text.Contains | backend/services/downloader.py:67 | `sub in s`: the text occurs somewhere in the string. |
| Text.Join | backend/main.py:46 | `os.path.join` (POSIX): the result ends with the joined name and is non-empty when the name is. An absolute name is returned as it is. For a relative name it is the directory followed by the name, with one '/' between them unless the directory is empty or already ends with '/'. |
| Text.Ext | backend/main.py:45 | `os.path.splitext(p)[1]`: empty exactly when the last path component has no '.' preceded by a non-dot character. Otherwise it is `p` from its last '.', a suffix holding no other '.' and no '/'. |
| Text.ExtOfMp4 | backend/main.py:45 | The extension of a name such as `dir/abc.mp4` is `.mp4`. |
| Text.ReplaceSingleChar | backend/services/processor.py:17 | Replacing one character by another with `str.replace` keeps the length and rewrites exactly the positions holding that character. |
| Text.ReplaceKeepsSuffix | backend/services/downloader.py:47-50 | When a name ends with `.webm` or `.mkv` (patterns that cannot overlap themselves), `str.replace` leaves it ending with the replacement. |
| State.Lookup | backend/state.py:6-9 | The record `get_task` yields: the stored one, or the queued default. |
| State.Overwrite | backend/state.py:11-18 | Status and progress are always overwritten. Result file and error are set exactly by a truthy argument, otherwise kept, and never cleared. Stored values stay non-empty. |
| State.Apply | backend/state.py:11-18 | After one `update_task` the id is present. No entry is removed, other records are unchanged, and the id's record is the old (or default) one overwritten. |
| State.ReplayProgressOnly | backend/state.py:11-18 | A series of status/progress-only writes to a stored id keeps the ids, the other records, and that record's result file and error. It leaves the last write's status and progress. |
| State.TaskStore.constructor | backend/state.py:4 | The store starts empty. |
| State.TaskStore.GetTask | backend/state.py:6-9 | A hit returns the stored record and changes nothing. A miss inserts and returns the queued record with progress 0, no result and no error. |
| State.TaskStore.UpdateTask | backend/state.py:11-18 | The new store is `Apply` of the call (progress defaults to 0). The call is appended to the log. |
| Files.FileSystem.Exists | backend/main.py:66 | `os.path.exists`: the path is among the existing files. |
| Files.FileSystem.Rename | backend/services/downloader.py:73 | `os.rename` succeeds exactly when the source exists and the system allows it, and then moves the path. |
| Files.FileSystem.Remove | backend/main.py:68 | `os.remove` succeeds exactly when the path exists and the system allows it, and then removes only that path. |
| Downloader.Total | backend/services/downloader.py:20 | `total_bytes` when truthy, else `total_bytes_estimate`. |
| Downloader.DownloadedOrZero | backend/services/downloader.py:21 | `downloaded_bytes`, or 0 when the key is absent. |
| Downloader.HookEffect | backend/services/downloader.py:16-31 | Byte counts are integers or floats. A "downloading" event with a truthy total (`total_bytes` preferred over the estimate) gives `downloading` with progress·total = 100·downloaded (downloaded defaults to 0). A `None` downloaded count gives no write. A missing or zero total gives exactly 10. "finished" gives `processing`/100. Any other status gives no write. |
| Downloader.HookWrites | backend/services/downloader.py:16-31 | A series of hook calls writes only status and progress of its own task, and at most one write per event. |
| Downloader.DownloadingProgressMonotone | backend/services/downloader.py:20-24 | With the same positive total, more downloaded bytes never report less progress. |
| Downloader.ScriptedFetchProgress | backend/services/downloader.py:17-24 | Events of 10, 50 and 100 bytes out of 100 write `downloading` at 10, 50 and 100. |
| Downloader.ProgressHook | backend/services/downloader.py:16-31 | One hook call makes exactly the writes `HookEffect` gives, with swallowed exceptions writing nothing. |
| Downloader.HookCalls | backend/services/downloader.py:37 | yt-dlp calling the hook once per event, in order, makes exactly `HookWrites` of the events. |
| Downloader.ResultPath | backend/services/downloader.py:54 | The fixed name `{dir}/{task_id}.mp4` ends in `.mp4`. |
| Downloader.FirstCandidate | backend/services/downloader.py:59-61 | A found file in one directory ends in `.mp4`. |
| Downloader.FirstCandidateNone | backend/services/downloader.py:59-61 | A directory yields nothing exactly when none of its names starts with the task id and ends in `.mp4`. |
| Downloader.FirstCandidateSome | backend/services/downloader.py:59-61 | What a directory yields is its root joined with the first such name. |
| Downloader.FirstMatch | backend/services/downloader.py:58-61 | A file found by the walk ends in `.mp4`. |
| Downloader.MatchDirectory | backend/services/downloader.py:58-61 | The first directory holding a candidate: every earlier one holds none, and the walk's result is that directory's first candidate. When no directory holds one, the walk finds nothing. |
| Downloader.FirstMatchSpec | backend/services/downloader.py:57-63 | The walk finds nothing exactly when no directory holds a candidate. Otherwise it finds the first candidate of the first directory that has one, in walk order. |
| Downloader.ResolvedPath | backend/services/downloader.py:54-63 | The returned path ends in `.mp4`. It is the fixed name when that exists. Otherwise it is the walk's first candidate, and the fixed name again when the walk finds none. |
| Downloader.ResolveResultPath | backend/services/downloader.py:54-63 | The nested loop with early return computes `ResolvedPath`. |
| Downloader.MergedName | backend/services/downloader.py:46-50 | A `.webm` or `.mkv` name is rewritten to end in `.mp4`, and any other name is unchanged. |
| Downloader.MergedNameRewritesEveryOccurrence | backend/services/downloader.py:47-48 | The rewrite replaces every occurrence, not only the suffix: `a.webm.webm` becomes `a.mp4.mp4`. |
| Downloader.TempPath | backend/services/downloader.py:69 | The temporary merge name `{dir}/{task_id}.temp.mp4` ends in `.mp4`. |
| Downloader.IsLockedMerge | backend/services/downloader.py:67 | The exception text contains both "WinError 32" and ".temp.mp4". |
| Downloader.FilesAfterRecovery | backend/services/downloader.py:71-74 | Only a permitted rename of an existing temporary file after a locked-merge failure changes the files: the temporary name is replaced by the final one. |
| Downloader.Recovered | backend/services/downloader.py:67-78 | Recovery applies only when the message contains both "WinError 32" and ".temp.mp4". With the temporary file present it returns the final path when the rename succeeds and the temporary path when it is refused. Otherwise it returns an existing final file. The returned file exists afterwards. It gives nothing exactly when the signature is missing or neither file exists. |
| Downloader.RecoverLockedMerge | backend/services/downloader.py:64-78 | The imperative recovery returns `Recovered` and changes the files only by a successful rename. |
| Downloader.DownloadOutcome | backend/services/downloader.py:42-81 | A returned path is non-empty and ends in `.mp4`. A reported name always yields `ResolvedPath`. An exception succeeds exactly when `Recovered` finds a file, and then returns that file. A failure carries the exception text unchanged, and every exception without the lock signature fails. |
| Downloader.DownloadWrites | backend/services/downloader.py:80 | The downloader's store writes: the hook's, then `failed` with the exception text when it raises. |
| Downloader.DownloadVideo | backend/services/downloader.py:6-81 | `download_video` returns `DownloadOutcome`, leaves the files of the recovery, and makes the hook's writes, followed by `failed` with the exception text when it raises. |
| Processor.TimeOption | backend/services/processor.py:17 | A trim time keeps its length, every '.' becomes ':', and no '.' remains. |
| Processor.InputOptions | backend/services/processor.py:15-19 | `ss` is present exactly when the start time is non-empty, and `to` exactly when the end time is. Each holds the converted time, and there are no other keys. |
| Processor.OrZero | backend/services/processor.py:27 | `crop_x or 0`: an absent offset is 0. |
| Processor.BuildPlan | backend/services/processor.py:15-36 | The plan reads the input path and writes the output path. It crops exactly when width and height are both given, with offsets defaulting to 0. With a crop it uses `vcodec=libx264, acodec=copy`, otherwise only `c=copy`. |
| Processor.ReencodesIffCrops | backend/services/processor.py:29-34 | A plan re-encodes the video exactly when it crops. Otherwise it copies every stream. |
| Processor.RunErrorDetail | backend/services/processor.py:45 | The captured stderr when non-empty, else the exception's own description. |
| Processor.FilesAfterRun | backend/services/processor.py:39 | Only a run that wrote its output adds it to the files. |
| Processor.RunOutcome | backend/services/processor.py:38-47 | Success exactly when FFmpeg ran, returning the output path. A missing binary gives "FFmpeg is missing from the system environment". A run error gives exactly "Failed to process video: " followed by stderr, or by the description when stderr is empty. Errors are never empty. |
| Processor.ErrorKindsDistinct | backend/services/processor.py:41-47 | The two failure kinds never produce the same message. |
| Processor.ProcessVideo | backend/services/processor.py:5-47 | The step-by-step option building yields `BuildPlan`, and the outcome is `RunOutcome`. Only a run that wrote its output adds it to the files. |
| App.ProcessingNeeded | backend/main.py:40 | An edit is needed when the start or end time is non-empty, or when a crop object is present, whatever its fields hold. |
| App.ProcessedPath | backend/main.py:45-46 | The edited file's path ends with `{task_id}_processed{ext}`, and is non-empty. For an id not starting with '/', it is the temporary directory followed by that name, with one '/' between them unless the directory already ends with '/'. |
| App.CropArgs | backend/main.py:48-55 | The request's crop fields, or no crop argument at all when the request has no crop. |
| App.EditPlan | backend/main.py:48-63 | The invocation the job asks for: the download as input, the processed path as output, the request's trim times as input options, and a crop exactly when the request's width and height are both given, with its offsets defaulting to 0. |
| App.Download | backend/main.py:37 | The download step's returned path is non-empty and ends in `.mp4`, and a failed download leaves the files as they were. |
| App.EditOutcome | backend/main.py:45-72 | What the edit step yields: FFmpeg's exception text when it fails. Otherwise the edited file when it exists afterwards, else the download. |
| App.EditFiles | backend/main.py:57-72 | The files after the edit step: FFmpeg's output when written, then the download removed when an edited file exists and the system allows the removal. |
| App.JobOutcome | backend/main.py:37-74 | What the job delivers: the download's failure, the download when no edit is needed, else the edit step's outcome. |
| App.JobFiles | backend/main.py:37-72 | The files when the job ends: the download step's files, with the edit step's changes when an edit is needed and the download succeeded. |
| App.JobInvocation | backend/main.py:37-63 | FFmpeg is invoked, with `EditPlan`, exactly after a successful download whose request asks for an edit. |
| App.Finish | backend/main.py:74-78 | The final record: `completed`/100 with the delivered file, or `failed` with the exception text. |
| App.StartWrites | backend/main.py:34 | The job's first writes (`downloading`/0, then the hook's) touch only status and progress of its task. |
| App.JobMiddle | backend/main.py:42-43 | Between download and the end there is at most one write, for the task, storing no file. |
| App.JobWrites | backend/main.py:29-79 | The job's first store write is `downloading` with progress 0. Its last is the final record of the job's outcome. |
| App.FinishedRecord | backend/main.py:74-78 | Replaying such writes leaves `completed`/100 with the file and the old error, or `failed`/0 with the old file and the exception text (an empty text is not stored). Other records and the set of ids are unchanged apart from the task's id. |
| App.JobRecord | backend/main.py:29-79 | A job leaves its task `completed`/100 with the delivered file, or `failed`/0 with the exception text. It changes no other record. |
| App.SubmittedJobRecord | backend/main.py:83-91 | A freshly submitted job ends either completed with its file and no error, or failed with no file. |
| App.NoEditDeliversDownload | backend/main.py:40-42 | Without trim or crop, the job delivers what the download returned and leaves the download's files. |
| App.EditFailureKeepsOriginal | backend/main.py:57-68 | A failed edit fails the job with FFmpeg's message and removes no file, so the original download stays. |
| App.EditedOutcome | backend/main.py:57-74 | With an edit, the job fails exactly when FFmpeg fails. After a finished run it delivers the edited file when that file exists, and the download otherwise. |
| App.EditRemovesOnlyDownload | backend/main.py:65-72 | The edit step adds only its output. It removes only the download, and only when it then delivers the edited file. |
| App.OnlyOriginalRemoved | backend/main.py:65-72 | After the download step, the rest of the job adds no file but the edited output. It removes no file but the original download, and only when it delivers the edited output. |
| App.DownloadOnlyRenames | backend/services/downloader.py:71-74 | Apart from the files yt-dlp writes, which are part of the starting files, the download step adds no file but the final download name and removes no file but the temporary merge file: the recovery's rename is its only change. |
| App.WholeJobFiles | backend/main.py:29-79 | From the files present when the job starts (yt-dlp's own output among them), the whole job adds at most the final download name and the edited output, and removes at most the temporary merge file and the original download. |
| App.EditAnnouncedBeforeEnd | backend/main.py:42-43 | For every list of hook events, a successful download followed by an edit writes `processing`/50 immediately before the final record. |
| App.ProgressCanDrop | backend/main.py:43 | With an edit and a "finished" hook event, the store gets `processing`/100 and then `processing`/50. |
| App.AllNoneCropStillEdits | backend/main.py:40-55 | A crop object whose fields are all absent still triggers an edit, and that edit is a stream copy without cropping. |
| App.EditDownload | backend/main.py:42-72 | The edit branch runs FFmpeg with exactly `EditPlan` of the request, the download and `ProcessedPath`. It returns `EditOutcome` and leaves `EditFiles`. The original is removed (best effort) only when the edited file exists. |
| App.BackgroundDownloadAndProcess | backend/main.py:29-79 | The job's log, store and files are exactly `JobWrites`, `Replay` of them, and `JobFiles` of its download step. The FFmpeg invocation it makes is `JobInvocation`. |
| App.BackgroundTasks.AddTask | backend/main.py:89 | Scheduling appends exactly one deferred task. |
| App.ApiDownload | backend/main.py:81-91 | Submission stores `queued`/0 for the id (a fresh id gets the default record), schedules the job for that id, and returns the id. |
| App.StatusReply | backend/main.py:93-99 | An unknown id gives 404 "Task not found". Otherwise the answer is the record's status word and progress. |
| App.ApiStatus | backend/main.py:93-99 | The status endpoint answers `StatusReply` and never inserts a record. |
| App.FileReply | backend/main.py:101-121 | The guards run in order: unknown id gives 404, not completed or no file gives 400, file missing gives 404 "File has been deleted or cannot be found". Otherwise the file is delivered as `video_{id}{ext}`. |
| App.NotReadyExactlyWithoutFile | backend/main.py:108-109 | In a store where stored file names are never empty, a completed task is refused as not ready exactly when it has no result file. |
| App.ApiGetFile | backend/main.py:101-121 | The file endpoint answers `FileReply` and leaves the store as it was. On delivery, and only then, it schedules the deletion of exactly that path after 5 seconds. |
| App.JobThenFile | backend/main.py:101-121 | After a submitted job, the file endpoint delivers the job's file when it is on disk. It answers 404 when the file is not on disk, and 400 when the job failed. |

## Left out

- `round(pct, 2)` in the progress hook: progress is the exact quotient, without rounding to two decimals or floating point.
- `time.sleep(1)` before the lock recovery, and every other wait.
- The yt-dlp and FFmpeg libraries themselves. Their behaviour is a parameter, and the files yt-dlp writes are part of the starting file set.
- Partial output that a failed FFmpeg run may leave on disk: a failed run adds no file.
- Other exceptions from `ffmpeg.run`, such as a `PermissionError` when the binary cannot be executed: `process_video` lets these through with their own text, and the job would store it. The model's FFmpeg run has no case for them.
- Decoding FFmpeg's stderr: the model receives it as text. Output that is not valid UTF-8 makes `e.stderr.decode()` raise a decoding error, which then replaces the "Failed to process video" message.
- The unused `ext = info.get('ext', 'mp4')` in the downloader. The rewritten merge name is computed by `Downloader.MergedName` and, as in the source, never used.
- `os.makedirs` of the output directory. The directory is taken to exist.
- `os.walk` itself: the walk is a given list of directories in visiting order, without symbolic links or errors. The listing is not tied to the set of existing files, so a scanned candidate need not be among them.
- Windows path syntax: paths are joined with `/`, although the lock recovery targets Windows.
- `uuid4`: the task id is a parameter of `App.ApiDownload`, and freshness is a precondition only of the lemmas about a fresh submission.
- Concurrency: FastAPI's background tasks and asyncio. The background job is a method called on its own, and `App.BackgroundTasks` only records what is scheduled.
- `backend/utils/cleanup.py`: the timed deletion is represented only by the `DeleteAfter(path, 5)` entry that the file endpoint schedules.
- The HTTP layer: FastAPI setup, CORS, `FileResponse` streaming, the debug endpoint and uvicorn. Pydantic validation of the URL is also left out, and the URL is not used by the model.
- Sharing of records: Python hands out the stored dictionary itself, and the model hands out a copy. No caller in the core mutates a record it received.
- `print` calls.
- State.TaskStore.GetTask: a hit returns the stored record as a value, not the dictionary shared with the store.

=== FILE: app.dfy ===
/** The API and the background job (backend/main.py): submission registers a
    queued task and schedules the job; the job downloads, optionally edits,
    and finishes the task as completed or failed; the status and file
    endpoints are guard chains over the task store. */
module App {
  import opened Wrappers
  import opened Text
  import opened Models
  import opened State
  import opened Files
  import opened Downloader
  import opened Processor

  // ---------------------------------------------------------------- the job, as values

  /** `request.startTime or request.endTime or request.crop`: a crop object
      counts even when all of its fields are `None`. */
  predicate ProcessingNeeded(req: DownloadRequest) {
    Truthy(req.startTime) || Truthy(req.endTime) || req.crop.Some?
  }

  /** `{TEMP_DIR}/{task_id}_processed{ext}`, with the download's extension. */
  function ProcessedPath(tempDir: string, taskId: string, downloaded: string): (p: string)
    ensures EndsWith(p, taskId + "_processed" + Ext(downloaded))
    ensures p != ""
    ensures !StartsWith(taskId, "/") ==> StartsWith(p, tempDir)
    ensures !StartsWith(taskId, "/") ==>
      p == tempDir + (taskId + "_processed" + Ext(downloaded))
      || p == tempDir + "/" + (taskId + "_processed" + Ext(downloaded))
  {
    var name := taskId + "_processed" + Ext(downloaded);
    assert !StartsWith(taskId, "/") ==> !StartsWith(name, "/") by {
      if taskId == "" {
        assert name[0] == '_';
      } else {
        assert name[0] == taskId[0];
      }
    }
    Join(tempDir, name)
  }

  /** The crop arguments forwarded to the editor: the request's crop fields, or none at all. */
  function CropArgs(req: DownloadRequest): CropOptions {
    if req.crop.Some? then req.crop.value else CropOptions()
  }

  /** The FFmpeg invocation the job asks for: the request's trim times, and
      its crop size and offsets in their own places. */
  function EditPlan(req: DownloadRequest, input: string, output: string): (p: Plan)
    ensures p.input == input && p.output == output
    ensures p.inputOptions == InputOptions(req.startTime, req.endTime)
    ensures p.crop.Some? <==> req.crop.Some? && req.crop.value.width.Some? && req.crop.value.height.Some?
    ensures p.crop.Some? ==>
      p.crop.value == Crop(OrZero(req.crop.value.x), OrZero(req.crop.value.y),
                           req.crop.value.width.value, req.crop.value.height.value)
  {
    var c := CropArgs(req);
    BuildPlan(input, output, req.startTime, req.endTime, c.width, c.height, c.x, c.y)
  }

  /** How the external tools behave during one job: the progress events and
      outcome of yt-dlp, the directory listing, whether the operating system
      allows the recovery rename, FFmpeg's outcome, and whether it allows the
      removal of the original download. */
  datatype ToolRuns = ToolRuns(
    events: seq<HookEvent>,
    fetch: FetchRun,
    walk: seq<WalkEntry>,
    renameSucceeds: bool,
    ffmpeg: FfmpegRun,
    removeSucceeds: bool)

  /** What the download step leaves behind: the path it returned (or the text
      of the exception it raised) and the files on disk. */
  datatype DownloadStage = DownloadStage(result: Result<string>, files: set<string>)
  {
    /** A returned path is never empty. */
    predicate Valid() {
      result.Success? ==> result.value != ""
    }
  }

  /** The download step of a job, over the files present when it starts. */
  function Download(files: set<string>, tempDir: string, taskId: string, runs: ToolRuns): (d: DownloadStage)
    ensures d.Valid()
    ensures d.result.Success? ==> EndsWith(d.result.value, ".mp4")
    ensures d.result.Failure? ==> d.files == files
  {
    DownloadStage(DownloadOutcome(files, tempDir, taskId, runs.walk, runs.fetch, runs.renameSucceeds),
                  FilesAfterDownload(files, tempDir, taskId, runs.fetch, runs.renameSucceeds))
  }

  /** What the edit step yields for a downloaded file: FFmpeg's exception
      text, or the edited file if it exists afterwards, else the download. */
  function EditOutcome(files: set<string>, tempDir: string, taskId: string, downloaded: string, ffmpeg: FfmpegRun): (r: Result<string>)
  {
    var out := ProcessedPath(tempDir, taskId, downloaded);
    var edit := RunOutcome(ffmpeg, out);
    if edit.Failure? then Failure(edit.error)
    else if out in FilesAfterRun(files, ffmpeg, out) then Success(out)
    else Success(downloaded)
  }

  /** The files after the edit step: FFmpeg's output, then the removal of the
      download once an edited file exists (when the system allows it). */
  function EditFiles(files: set<string>, tempDir: string, taskId: string, downloaded: string,
                     ffmpeg: FfmpegRun, removeSucceeds: bool): set<string>
  {
    var out := ProcessedPath(tempDir, taskId, downloaded);
    var edited := FilesAfterRun(files, ffmpeg, out);
    if ffmpeg.Ran? && out in edited && removeSucceeds then edited - {downloaded} else edited
  }

  /** The file the job delivers, or the text of the exception that ended it. */
  function JobOutcome(d: DownloadStage, tempDir: string, req: DownloadRequest, taskId: string, runs: ToolRuns): Result<string> {
    if d.result.Failure? || !ProcessingNeeded(req) then d.result
    else EditOutcome(d.files, tempDir, taskId, d.result.value, runs.ffmpeg)
  }

  /** The files when the job ends. */
  function JobFiles(d: DownloadStage, tempDir: string, req: DownloadRequest, taskId: string, runs: ToolRuns): set<string> {
    if d.result.Failure? || !ProcessingNeeded(req) then d.files
    else EditFiles(d.files, tempDir, taskId, d.result.value, runs.ffmpeg, runs.removeSucceeds)
  }

  /** The FFmpeg invocation the job makes, if any: only after a successful
      download that asks for an edit. */
  function JobInvocation(d: DownloadStage, tempDir: string, req: DownloadRequest, taskId: string): Option<Plan> {
    if d.result.Success? && ProcessingNeeded(req)
    then Some(EditPlan(req, d.result.value, ProcessedPath(tempDir, taskId, d.result.value)))
    else None
  }

  /** The job's last store write. */
  function Finish(taskId: string, outcome: Result<string>): Write {
    match outcome
    case Success(p) => Write(taskId, Completed, 100.0, Some(p), None)
    case Failure(e) => Write(taskId, Failed, 0.0, None, Some(e))
  }

  /** The writes before the job's tools return: "downloading" at 0, then the hook's. */
  function StartWrites(taskId: string, events: seq<HookEvent>): (w: seq<Write>)
    ensures ProgressOnly(taskId, w)
  {
    [Write(taskId, Downloading, 0.0, None, None)] + HookWrites(taskId, events)
  }

  /** The writes between the download and the final record: the downloader's
      "failed" record when the download raises, "processing" at 50 when an
      edit follows, nothing otherwise. */
  function JobMiddle(d: DownloadStage, req: DownloadRequest, taskId: string): (m: seq<Write>)
    ensures |m| <= 1
    ensures m != [] ==> m[0].id == taskId && m[0].resultFile == None
  {
    if d.result.Failure? then [Write(taskId, Failed, 0.0, None, Some(d.result.error))]
    else if ProcessingNeeded(req) then [Write(taskId, Processing, 50.0, None, None)]
    else []
  }

  /** Every store write of `background_download_and_process`, in order. */
  function JobWrites(d: DownloadStage, tempDir: string, req: DownloadRequest, taskId: string, runs: ToolRuns): (w: seq<Write>)
    ensures |w| >= 2
    ensures w[0] == Write(taskId, Downloading, 0.0, None, None)
    ensures w[|w| - 1] == Finish(taskId, JobOutcome(d, tempDir, req, taskId, runs))
  {
    StartWrites(taskId, runs.events) + JobMiddle(d, req, taskId) + [Finish(taskId, JobOutcome(d, tempDir, req, taskId, runs))]
  }

  // ---------------------------------------------------------------- the job's record

  /** The record left by the start writes, at most one further write that
      stores no file (and no error but the final one), and the final write. */
  lemma {:induction false} FinishedRecord(tasks: map<string, Task>, taskId: string, events: seq<HookEvent>,
                                          mid: seq<Write>, outcome: Result<string>)
    requires |mid| <= 1
    requires mid != [] ==>
      (mid[0].id == taskId && mid[0].resultFile == None
       && (mid[0].error == None || (outcome.Failure? && mid[0].error == Some(outcome.error))))
    requires outcome.Success? ==> outcome.value != ""
    ensures var r := Replay(tasks, StartWrites(taskId, events) + mid + [Finish(taskId, outcome)]);
      var before := Lookup(tasks, taskId);
      && r.Keys == tasks.Keys + {taskId}
      && (forall k :: k in tasks && k != taskId ==> r[k] == tasks[k])
      && (outcome.Success? ==> r[taskId] == Task(Completed, 100.0, Some(outcome.value), before.error))
      && (outcome.Failure? ==>
            r[taskId] == Task(Failed, 0.0, before.resultFile, if outcome.error != "" then Some(outcome.error) else before.error))
  {
    var first := Write(taskId, Downloading, 0.0, None, None);
    var hooks := HookWrites(taskId, events);
    var last := Finish(taskId, outcome);
    var t1 := Apply(tasks, first);
    ReplayOne(tasks, first);
    ReplayConcat(tasks, [first], hooks);
    ReplayProgressOnly(t1, taskId, hooks);
    var t2 := Replay(t1, hooks);
    ReplayConcat(tasks, [first] + hooks, mid);
    ReplaySnoc(tasks, [first] + hooks + mid, last);
    if mid != [] {
      ReplayOne(t2, mid[0]);
    }
  }

  /** The record a job leaves behind: completed at 100 with the delivered file,
      or failed at 0 with the exception text (an empty text is not stored);
      nothing else in the store changes. */
  lemma JobRecord(tasks: map<string, Task>, d: DownloadStage, tempDir: string,
                  req: DownloadRequest, taskId: string, runs: ToolRuns)
    requires d.Valid()
    ensures var r := Replay(tasks, JobWrites(d, tempDir, req, taskId, runs));
      var before := Lookup(tasks, taskId);
      var outcome := JobOutcome(d, tempDir, req, taskId, runs);
      && r.Keys == tasks.Keys + {taskId}
      && (forall k :: k in tasks && k != taskId ==> r[k] == tasks[k])
      && (outcome.Success? ==> r[taskId] == Task(Completed, 100.0, Some(outcome.value), before.error))
      && (outcome.Failure? ==>
            r[taskId] == Task(Failed, 0.0, before.resultFile, if outcome.error != "" then Some(outcome.error) else before.error))
  {
    var outcome := JobOutcome(d, tempDir, req, taskId, runs);
    assert outcome.Success? ==> outcome.value != "";
    FinishedRecord(tasks, taskId, runs.events, JobMiddle(d, req, taskId), outcome);
  }

  /** A freshly submitted job ends either completed with its file and no
      error, or failed with no file. */
  lemma SubmittedJobRecord(tasks: map<string, Task>, d: DownloadStage, tempDir: string,
                           req: DownloadRequest, taskId: string, runs: ToolRuns)
    requires taskId !in tasks && d.Valid()
    ensures var r := Replay(Apply(tasks, Write(taskId, Queued, 0.0, None, None)), JobWrites(d, tempDir, req, taskId, runs));
      var outcome := JobOutcome(d, tempDir, req, taskId, runs);
      && taskId in r
      && (outcome.Success? ==> r[taskId] == Task(Completed, 100.0, Some(outcome.value), None))
      && (outcome.Failure? ==> r[taskId] == Task(Failed, 0.0, None, if outcome.error != "" then Some(outcome.error) else None))
  {
    JobRecord(Apply(tasks, Write(taskId, Queued, 0.0, None, None)), d, tempDir, req, taskId, runs);
  }

  // ---------------------------------------------------------------- properties of the job

  /** Without trim or crop the job delivers what the downloader returned,
      touches no file itself, and writes nothing between download and end but
      the downloader's own failure record. */
  lemma NoEditDeliversDownload(d: DownloadStage, tempDir: string, req: DownloadRequest, taskId: string, runs: ToolRuns)
    requires !ProcessingNeeded(req)
    ensures JobOutcome(d, tempDir, req, taskId, runs) == d.result
    ensures JobFiles(d, tempDir, req, taskId, runs) == d.files
    ensures |JobWrites(d, tempDir, req, taskId, runs)| == 1 + |HookWrites(taskId, runs.events)| + (if d.result.Success? then 1 else 2)
  {
  }

  /** A failed edit fails the job with the editor's message and leaves every
      file, the original download included, where it was. */
  lemma EditFailureKeepsOriginal(d: DownloadStage, tempDir: string, req: DownloadRequest, taskId: string, runs: ToolRuns)
    requires ProcessingNeeded(req) && d.result.Success? && !runs.ffmpeg.Ran?
    ensures JobOutcome(d, tempDir, req, taskId, runs) == RunOutcome(runs.ffmpeg, ProcessedPath(tempDir, taskId, d.result.value))
    ensures JobFiles(d, tempDir, req, taskId, runs) == d.files
  {
  }

  /** With an edit, the job fails exactly when FFmpeg does; after a finished
      run it delivers the edited file when that exists, else the download. */
  lemma EditedOutcome(d: DownloadStage, tempDir: string, req: DownloadRequest, taskId: string, runs: ToolRuns)
    requires ProcessingNeeded(req) && d.result.Success?
    ensures var out := ProcessedPath(tempDir, taskId, d.result.value);
      var r := JobOutcome(d, tempDir, req, taskId, runs);
      && (r.Failure? <==> !runs.ffmpeg.Ran?)
      && (runs.ffmpeg == Ran(true) ==> r == Success(out))
      && (r.Success? ==> r.value == out || r.value == d.result.value)
      && (runs.ffmpeg.Ran? ==>
            r == Success(if out in FilesAfterRun(d.files, runs.ffmpeg, out) then out else d.result.value))
  {
  }

  /** The edit step adds no file but its output, and removes no file but the
      download, and that only when it delivers its output instead. */
  lemma EditRemovesOnlyDownload(files: set<string>, tempDir: string, taskId: string, downloaded: string,
                                ffmpeg: FfmpegRun, removeSucceeds: bool)
    ensures var out := ProcessedPath(tempDir, taskId, downloaded);
      var after := EditFiles(files, tempDir, taskId, downloaded, ffmpeg, removeSucceeds);
      && (forall p :: p in after && p !in files ==> p == out)
      && (forall p :: p in files && p !in after ==>
            p == downloaded && EditOutcome(files, tempDir, taskId, downloaded, ffmpeg) == Success(out))
  {
    var out := ProcessedPath(tempDir, taskId, downloaded);
    var edited := FilesAfterRun(files, ffmpeg, out);
    assert edited <= files + {out};
    if ffmpeg.Ran? && out in edited && removeSucceeds {
      assert RunOutcome(ffmpeg, out).Success?;
      assert EditOutcome(files, tempDir, taskId, downloaded, ffmpeg) == Success(out);
    }
  }

  /** After the download step, the rest of the job adds no file but the
      edited output, and removes no file but the original download, and that
      only when it delivers the edited output. */
  lemma OnlyOriginalRemoved(d: DownloadStage, tempDir: string, req: DownloadRequest, taskId: string, runs: ToolRuns)
    ensures var after := JobFiles(d, tempDir, req, taskId, runs);
      && (forall p :: p in after && p !in d.files ==>
            d.result.Success? && p == ProcessedPath(tempDir, taskId, d.result.value))
      && (forall p :: p in d.files && p !in after ==>
            d.result.Success? && p == d.result.value
            && JobOutcome(d, tempDir, req, taskId, runs) == Success(ProcessedPath(tempDir, taskId, d.result.value)))
  {
    if d.result.Success? && ProcessingNeeded(req) {
      var downloaded := d.result.value;
      assert JobFiles(d, tempDir, req, taskId, runs) == EditFiles(d.files, tempDir, taskId, downloaded, runs.ffmpeg, runs.removeSucceeds);
      assert JobOutcome(d, tempDir, req, taskId, runs) == EditOutcome(d.files, tempDir, taskId, downloaded, runs.ffmpeg);
      EditRemovesOnlyDownload(d.files, tempDir, taskId, downloaded, runs.ffmpeg, runs.removeSucceeds);
    } else {
      assert JobFiles(d, tempDir, req, taskId, runs) == d.files;
    }
  }

  /** The whole job, from the files present when it starts (yt-dlp's own
      output among them, as the model takes it): besides the
      edited output it may add only the final download name (the lock
      recovery's rename), and besides the original download it may remove only
      the temporary merge file (the same rename). */
  lemma WholeJobFiles(files: set<string>, tempDir: string, req: DownloadRequest, taskId: string, runs: ToolRuns)
    ensures var d := Download(files, tempDir, taskId, runs);
      var after := JobFiles(d, tempDir, req, taskId, runs);
      && (forall p :: p in after && p !in files ==>
            p == ResultPath(tempDir, taskId) || (d.result.Success? && p == ProcessedPath(tempDir, taskId, d.result.value)))
      && (forall p :: p in files && p !in after ==>
            p == TempPath(tempDir, taskId) || (d.result.Success? && p == d.result.value))
  {
    var d := Download(files, tempDir, taskId, runs);
    DownloadOnlyRenames(files, tempDir, taskId, runs);
    OnlyOriginalRemoved(d, tempDir, req, taskId, runs);
    var after := JobFiles(d, tempDir, req, taskId, runs);
    forall p | p in after && p !in files
      ensures p == ResultPath(tempDir, taskId) || (d.result.Success? && p == ProcessedPath(tempDir, taskId, d.result.value))
    {
      if p !in d.files {
      } else {
        assert p in d.files - files;
      }
    }
    forall p | p in files && p !in after
      ensures p == TempPath(tempDir, taskId) || (d.result.Success? && p == d.result.value)
    {
      if p in d.files {
      } else {
        assert p in files - d.files;
      }
    }
  }

  /** Apart from the files yt-dlp writes, which the model takes as present
      from the start, the download step changes the files only by the
      recovery's rename. */
  lemma DownloadOnlyRenames(files: set<string>, tempDir: string, taskId: string, runs: ToolRuns)
    ensures Download(files, tempDir, taskId, runs).files - files <= {ResultPath(tempDir, taskId)}
    ensures files - Download(files, tempDir, taskId, runs).files <= {TempPath(tempDir, taskId)}
  {
  }

  /** Whatever the hook reported, an edit is announced as "processing" at 50
      just before the job's final record. */
  lemma EditAnnouncedBeforeEnd(d: DownloadStage, tempDir: string, req: DownloadRequest, taskId: string, runs: ToolRuns)
    requires ProcessingNeeded(req) && d.result.Success?
    ensures var w := JobWrites(d, tempDir, req, taskId, runs);
      |w| >= 3 && w[|w| - 2] == Write(taskId, Processing, 50.0, None, None)
  {
    var w := JobWrites(d, tempDir, req, taskId, runs);
    var start := StartWrites(taskId, runs.events);
    assert w == start + [Write(taskId, Processing, 50.0, None, None)] + [Finish(taskId, JobOutcome(d, tempDir, req, taskId, runs))];
  }

  /** With an edit, the "finished" hook event reports "processing" at 100 and
      the job then reports "processing" at 50: progress goes down. */
  lemma ProgressCanDrop(d: DownloadStage, tempDir: string, req: DownloadRequest, taskId: string, runs: ToolRuns)
    requires ProcessingNeeded(req) && runs.events == [HookEvent("finished")] && d.result.Success?
    ensures var w := JobWrites(d, tempDir, req, taskId, runs);
      |w| == 4
      && w[1] == Write(taskId, Processing, 100.0, None, None)
      && w[2] == Write(taskId, Processing, 50.0, None, None)
  {
    assert runs.events[1..] == [];
    assert HookWrites(taskId, runs.events) == [Write(taskId, Processing, 100.0, None, None)];
  }

  /** A crop object with every field left out still asks for an edit, and
      that edit copies the streams without cropping. */
  lemma AllNoneCropStillEdits(req: DownloadRequest, input: string, output: string)
    requires req.crop == Some(CropOptions())
    ensures ProcessingNeeded(req)
    ensures EditPlan(req, input, output).crop.None?
    ensures EditPlan(req, input, output).outputOptions == StreamCopyOptions
  {
  }

  // ---------------------------------------------------------------- the job, run

  /** The edit branch of the job (after "processing" at 50 is written): build
      the output name from the download's extension, forward the crop fields,
      run the editor, and replace the download by the edited file when that
      exists afterwards; the removal's own failure is swallowed. */
  method EditDownload(fs: FileSystem, tempDir: string, request: DownloadRequest, taskId: string,
                      downloadedFile: string, runs: ToolRuns) returns (plan: Plan, r: Result<string>)
    modifies fs
    ensures plan == EditPlan(request, downloadedFile, ProcessedPath(tempDir, taskId, downloadedFile))
    ensures r == EditOutcome(old(fs.files), tempDir, taskId, downloadedFile, runs.ffmpeg)
    ensures fs.files == EditFiles(old(fs.files), tempDir, taskId, downloadedFile, runs.ffmpeg, runs.removeSucceeds)
  {
    var ext := Ext(downloadedFile);
    var processedFile := Join(tempDir, taskId + "_processed" + ext);
    var crop := if request.crop.Some? then request.crop.value else CropOptions();
    var edited;
    plan, edited := ProcessVideo(fs, downloadedFile, processedFile, request.startTime, request.endTime,
                                     crop.width, crop.height, crop.x, crop.y, runs.ffmpeg);
    if edited.Failure? {
      r := Failure(edited.error);
      return;
    }
    r := Success(downloadedFile);
    if fs.Exists(processedFile) {
      var removed := fs.Remove(downloadedFile, runs.removeSucceeds);
      r := Success(processedFile);
    }
  }

  /** `background_download_and_process`: the tools run in order and every
      store write and file change is the one the value model predicts. An
      exception is the `Failure` of the step that raised it. */
  method BackgroundDownloadAndProcess(store: TaskStore, fs: FileSystem, tempDir: string,
                                      request: DownloadRequest, taskId: string, runs: ToolRuns)
      returns (ghost invoked: Option<Plan>)
    requires store.Valid()
    modifies store, fs
    ensures store.Valid()
    ensures store.log == old(store.log) + JobWrites(Download(old(fs.files), tempDir, taskId, runs), tempDir, request, taskId, runs)
    ensures store.tasks == Replay(old(store.tasks), JobWrites(Download(old(fs.files), tempDir, taskId, runs), tempDir, request, taskId, runs))
    ensures fs.files == JobFiles(Download(old(fs.files), tempDir, taskId, runs), tempDir, request, taskId, runs)
    ensures invoked == JobInvocation(Download(old(fs.files), tempDir, taskId, runs), tempDir, request, taskId)
  {
    ghost var start := store.tasks;
    ghost var d := Download(fs.files, tempDir, taskId, runs);
    ghost var mid := JobMiddle(d, request, taskId);
    var first := Write(taskId, Downloading, 0.0, None, None);

    ReplayOne(start, first);
    store.UpdateTask(taskId, Downloading, 0.0);

    var downloaded := DownloadVideo(store, fs, taskId, tempDir, runs.events, runs.fetch, runs.walk, runs.renameSucceeds);
    assert downloaded == d.result && fs.files == d.files;
    ReplayConcat(start, [first], DownloadWrites(taskId, runs.events, downloaded));
    AppendAssoc(old(store.log), [first], DownloadWrites(taskId, runs.events, downloaded));
    ghost var writes := [first] + DownloadWrites(taskId, runs.events, downloaded);
    if downloaded.Failure? {
      assert writes == StartWrites(taskId, runs.events) + mid;
    } else {
      assert writes == StartWrites(taskId, runs.events);
    }

    var outcome := downloaded;
    invoked := None;
    if downloaded.Success? {
      var isProcessingNeeded := Truthy(request.startTime) || Truthy(request.endTime) || request.crop.Some?;
      if isProcessingNeeded {
        ReplaySnoc(start, writes, Write(taskId, Processing, 50.0, None, None));
        AppendAssoc(old(store.log), writes, [Write(taskId, Processing, 50.0, None, None)]);
        store.UpdateTask(taskId, Processing, 50.0);
        writes := writes + [Write(taskId, Processing, 50.0, None, None)];
        var plan;
        plan, outcome := EditDownload(fs, tempDir, request, taskId, downloaded.value, runs);
        invoked := Some(plan);
      }
    }
    assert writes == StartWrites(taskId, runs.events) + mid;
    assert outcome == JobOutcome(d, tempDir, request, taskId, runs);

    ReplaySnoc(start, writes, Finish(taskId, outcome));
    ghost var logged := store.log;
    match outcome {
      case Success(path) =>
        store.UpdateTask(taskId, Completed, 100.0, resultFile := Some(path));
      case Failure(e) =>
        store.UpdateTask(taskId, Failed, error := Some(e));
    }
    assert store.log == logged + [Finish(taskId, outcome)];
    AppendAssoc(old(store.log), writes, [Finish(taskId, outcome)]);
    writes := writes + [Finish(taskId, outcome)];
  }

  // ---------------------------------------------------------------- the HTTP endpoints

  /** An endpoint's answer: a body, or an `HTTPException` with its status code and detail. */
  datatype Reply<T> = Ok(body: T) | HttpError(code: int, detail: string)

  datatype StatusBody = StatusBody(status: string, progress: real)

  /** A file response: the path streamed and the download name offered. */
  datatype Delivery = Delivery(path: string, filename: string)

  /** Work handed to FastAPI's background tasks, run after the response. */
  datatype Deferred = RunJob(request: DownloadRequest, taskId: string) | DeleteAfter(path: string, delaySeconds: int)

  const TaskNotFound := "Task not found"
  const FileNotReady := "File is not ready yet"
  const FileGone := "File has been deleted or cannot be found"
  /** Seconds between delivering a file and deleting it. */
  const DeliveryDeleteDelay := 5

  /** The background-task list of one request. */
  class BackgroundTasks {
    var pending: seq<Deferred>

    constructor ()
      ensures pending == []
    {
      pending := [];
    }

    method AddTask(d: Deferred)
      modifies this
      ensures pending == old(pending) + [d]
    {
      pending := pending + [d];
    }
  }

  /** `api_download`: register the (fresh) id as queued, schedule the job, return the id. */
  method ApiDownload(store: TaskStore, background: BackgroundTasks, request: DownloadRequest, taskId: string)
    returns (id: string)
    requires store.Valid()
    modifies store, background
    ensures store.Valid()
    ensures id == taskId
    ensures store.tasks == Apply(old(store.tasks), Write(taskId, Queued, 0.0, None, None))
    ensures store.log == old(store.log) + [Write(taskId, Queued, 0.0, None, None)]
    ensures taskId !in old(store.tasks) ==> store.tasks[taskId] == NewTask
    ensures background.pending == old(background.pending) + [RunJob(request, taskId)]
  {
    store.UpdateTask(taskId, Queued);
    background.AddTask(RunJob(request, taskId));
    id := taskId;
  }

  /** The answer of `api_status`. */
  function StatusReply(tasks: map<string, Task>, id: string): (r: Reply<StatusBody>)
    ensures r.HttpError? <==> id !in tasks
    ensures r.HttpError? ==> r == HttpError(404, TaskNotFound)
    ensures r.Ok? ==> r.body == StatusBody(tasks[id].status.Name(), tasks[id].progress)
  {
    if id !in tasks then HttpError(404, TaskNotFound)
    else Ok(StatusBody(tasks[id].status.Name(), tasks[id].progress))
  }

  /** `api_status`: the unknown id is refused before `get_task` could insert it. */
  method ApiStatus(store: TaskStore, id: string) returns (r: Reply<StatusBody>)
    requires store.Valid()
    modifies store
    ensures store.tasks == old(store.tasks) && store.log == old(store.log)
    ensures r == StatusReply(old(store.tasks), id)
  {
    if id !in store.tasks {
      return HttpError(404, TaskNotFound);
    }
    var task := store.GetTask(id);
    r := Ok(StatusBody(task.status.Name(), task.progress));
  }

  /** The answer of `api_get_file`: unknown id, then unfinished job, then
      missing file, then the file under the name `video_{id}{ext}`. */
  function FileReply(tasks: map<string, Task>, files: set<string>, id: string): (r: Reply<Delivery>)
    ensures id !in tasks ==> r == HttpError(404, TaskNotFound)
    ensures id in tasks && (tasks[id].status != Completed || !Truthy(tasks[id].resultFile)) ==>
      r == HttpError(400, FileNotReady)
    ensures id in tasks && tasks[id].status == Completed && Truthy(tasks[id].resultFile) && tasks[id].resultFile.value !in files ==>
      r == HttpError(404, FileGone)
    ensures id in tasks && tasks[id].status == Completed && Truthy(tasks[id].resultFile) && tasks[id].resultFile.value in files ==>
      r == Ok(Delivery(tasks[id].resultFile.value, "video_" + id + Ext(tasks[id].resultFile.value)))
  {
    if id !in tasks then HttpError(404, TaskNotFound)
    else if tasks[id].status != Completed || !Truthy(tasks[id].resultFile) then HttpError(400, FileNotReady)
    else if tasks[id].resultFile.value !in files then HttpError(404, FileGone)
    else
      var path := tasks[id].resultFile.value;
      Ok(Delivery(path, "video_" + id + Ext(path)))
  }

  /** In a well-formed store, a completed task is refused as not ready
      exactly when it has no result file: a stored file name is never empty. */
  lemma NotReadyExactlyWithoutFile(tasks: map<string, Task>, files: set<string>, id: string)
    requires AllWellFormed(tasks) && id in tasks && tasks[id].status == Completed
    ensures FileReply(tasks, files, id) == HttpError(400, FileNotReady) <==> tasks[id].resultFile.None?
  {
    assert WellFormed(tasks[id]);
  }

  /** `api_get_file`: answer, and on delivery schedule the file's deletion. */
  method ApiGetFile(store: TaskStore, fs: FileSystem, background: BackgroundTasks, id: string) returns (r: Reply<Delivery>)
    requires store.Valid()
    modifies store, background
    ensures store.tasks == old(store.tasks) && store.log == old(store.log)
    ensures r == FileReply(old(store.tasks), fs.files, id)
    ensures background.pending == old(background.pending) + (if r.Ok? then [DeleteAfter(r.body.path, DeliveryDeleteDelay)] else [])
  {
    if id !in store.tasks {
      return HttpError(404, TaskNotFound);
    }
    var task := store.GetTask(id);
    if task.status != Completed || !Truthy(task.resultFile) {
      return HttpError(400, FileNotReady);
    }
    var filepath := task.resultFile.value;
    if !fs.Exists(filepath) {
      return HttpError(404, FileGone);
    }
    var filename := "video_" + id + Ext(filepath);
    background.AddTask(DeleteAfter(filepath, DeliveryDeleteDelay));
    r := Ok(Delivery(filepath, filename));
  }

  /** After a submitted job, the file endpoint delivers the job's file when it
      is on disk, answers "deleted" when it is not, and answers "not ready"
      when the job failed. */
  lemma JobThenFile(tasks: map<string, Task>, d: DownloadStage, tempDir: string,
                    req: DownloadRequest, taskId: string, runs: ToolRuns)
    requires taskId !in tasks && d.Valid()
    ensures var r := Replay(Apply(tasks, Write(taskId, Queued, 0.0, None, None)), JobWrites(d, tempDir, req, taskId, runs));
      var after := JobFiles(d, tempDir, req, taskId, runs);
      var outcome := JobOutcome(d, tempDir, req, taskId, runs);
      && (outcome.Success? && outcome.value in after ==>
            FileReply(r, after, taskId) == Ok(Delivery(outcome.value, "video_" + taskId + Ext(outcome.value))))
      && (outcome.Success? && outcome.value !in after ==> FileReply(r, after, taskId) == HttpError(404, FileGone))
      && (outcome.Failure? ==> FileReply(r, after, taskId) == HttpError(400, FileNotReady))
  {
    SubmittedJobRecord(tasks, d, tempDir, req, taskId, runs);
  }
}

=== FILE: downloader.dfy ===
/** The downloader service (backend/services/downloader.py): it runs yt-dlp
    (an external call whose outcome is a parameter here), reports progress
    into the task store through the progress hook, finds the merged file,
    and recovers from one Windows file-lock failure. */
module Downloader {
  import opened Wrappers
  import opened Text
  import opened State
  import opened Files

  // ---------------------------------------------------------------- progress hook

  /** A key of the hook's dictionary: absent, present with `None`, or a number
      (an integer byte count or a floating-point estimate). */
  datatype Field = Missing | Null | Num(n: real)

  predicate FieldTruthy(f: Field) {
    f.Num? && f.n != 0.0
  }

  /** One call of the progress hook: the dictionary's status and byte counts. */
  datatype HookEvent = HookEvent(
    status: string,
    totalBytes: Field := Missing,
    totalBytesEstimate: Field := Missing,
    downloadedBytes: Field := Missing)

  /** `d.get('total_bytes') or d.get('total_bytes_estimate')`. */
  function Total(d: HookEvent): Field {
    if FieldTruthy(d.totalBytes) then d.totalBytes else d.totalBytesEstimate
  }

  /** `d.get('downloaded_bytes', 0)` when the key holds a number or is absent. */
  function DownloadedOrZero(d: HookEvent): real {
    if d.downloadedBytes.Num? then d.downloadedBytes.n else 0.0
  }

  /** The progress reported while the size is unknown. */
  const UnknownSizeProgress: real := 10.0

  /** What one hook call writes to the store, if anything. A `None` byte count
      makes the division raise, which the hook swallows. */
  function HookEffect(d: HookEvent): (r: Option<(Status, real)>)
    ensures r.Some? ==> d.status == "downloading" || d.status == "finished"
    ensures d.status == "finished" ==> r == Some((Processing, 100.0))
    ensures d.status == "downloading" && r.Some? ==> r.value.0 == Downloading
    ensures d.status == "downloading" && !FieldTruthy(Total(d)) ==> r == Some((Downloading, UnknownSizeProgress))
    ensures d.status == "downloading" && FieldTruthy(Total(d)) ==> (r.None? <==> d.downloadedBytes.Null?)
    ensures d.status == "downloading" && FieldTruthy(Total(d)) && r.Some? ==>
      r.value.1 * Total(d).n == 100.0 * DownloadedOrZero(d)
  {
    if d.status == "downloading" then
      var total := Total(d);
      if FieldTruthy(total) then
        if d.downloadedBytes.Null? then None
        else Some((Downloading, DownloadedOrZero(d) / total.n * 100.0))
      else Some((Downloading, UnknownSizeProgress))
    else if d.status == "finished" then Some((Processing, 100.0))
    else None
  }

  /** The store writes of one hook call. */
  function HookWrite(taskId: string, d: HookEvent): seq<Write> {
    match HookEffect(d)
    case None => []
    case Some(e) => [Write(taskId, e.0, e.1, None, None)]
  }

  /** The store writes of a series of hook calls, in order. */
  function HookWrites(taskId: string, events: seq<HookEvent>): (w: seq<Write>)
    ensures ProgressOnly(taskId, w)
    ensures |w| <= |events|
    decreases |events|
  {
    if events == [] then [] else HookWrite(taskId, events[0]) + HookWrites(taskId, events[1..])
  }

  lemma {:induction false} HookWritesSnoc(taskId: string, events: seq<HookEvent>, d: HookEvent)
    ensures HookWrites(taskId, events + [d]) == HookWrites(taskId, events) + HookWrite(taskId, d)
    decreases |events|
  {
    if events == [] {
      assert events + [d] == [d];
      assert [d][1..] == [];
    } else {
      assert (events + [d])[0] == events[0];
      assert (events + [d])[1..] == events[1..] + [d];
      HookWritesSnoc(taskId, events[1..], d);
    }
  }

  /** With a known positive size, more downloaded bytes never report less progress. */
  lemma DownloadingProgressMonotone(d1: HookEvent, d2: HookEvent)
    requires d1.status == "downloading" && d2.status == "downloading"
    requires Total(d1) == Total(d2) && Total(d1).Num? && Total(d1).n > 0.0
    requires d1.downloadedBytes.Num? && d2.downloadedBytes.Num?
    requires d1.downloadedBytes.n <= d2.downloadedBytes.n
    ensures HookEffect(d1).Some? && HookEffect(d2).Some?
    ensures HookEffect(d1).value.1 <= HookEffect(d2).value.1
  {
    var t := Total(d1).n;
    var a := d1.downloadedBytes.n;
    var b := d2.downloadedBytes.n;
    assert a / t <= b / t by {
      assert b / t - a / t == (b - a) / t;
    }
  }

  /** The scripted fetch of 10, 50 and 100 bytes out of 100 reports 10, 50 and 100 percent. */
  lemma ScriptedFetchProgress(taskId: string)
    ensures HookWrites(taskId, [
        HookEvent("downloading", totalBytes := Num(100.0), downloadedBytes := Num(10.0)),
        HookEvent("downloading", totalBytes := Num(100.0), downloadedBytes := Num(50.0)),
        HookEvent("downloading", totalBytes := Num(100.0), downloadedBytes := Num(100.0))])
      == [Write(taskId, Downloading, 10.0, None, None),
          Write(taskId, Downloading, 50.0, None, None),
          Write(taskId, Downloading, 100.0, None, None)]
  {
    var e := [
        HookEvent("downloading", totalBytes := Num(100.0), downloadedBytes := Num(10.0)),
        HookEvent("downloading", totalBytes := Num(100.0), downloadedBytes := Num(50.0)),
        HookEvent("downloading", totalBytes := Num(100.0), downloadedBytes := Num(100.0))];
    assert e[1..][1..][1..] == [];
  }

  /** `progress_hook`: one call of yt-dlp's hook writes the task's progress. */
  method ProgressHook(store: TaskStore, taskId: string, d: HookEvent)
    requires store.Valid()
    modifies store
    ensures store.Valid()
    ensures store.log == old(store.log) + HookWrite(taskId, d)
    ensures store.tasks == Replay(old(store.tasks), HookWrite(taskId, d))
  {
    if d.status == "downloading" {
      var total := if FieldTruthy(d.totalBytes) then d.totalBytes else d.totalBytesEstimate;
      var downloaded := if d.downloadedBytes.Missing? then Num(0.0) else d.downloadedBytes;
      if FieldTruthy(total) {
        if downloaded.Num? {
          var pct := downloaded.n / total.n * 100.0;
          store.UpdateTask(taskId, Downloading, pct);
        }
        // otherwise the division raises and the hook swallows the exception
      } else {
        store.UpdateTask(taskId, Downloading, UnknownSizeProgress);
      }
    } else if d.status == "finished" {
      store.UpdateTask(taskId, Processing, 100.0);
    }
  }

  /** yt-dlp calling the progress hook once per event, in order. */
  method HookCalls(store: TaskStore, taskId: string, events: seq<HookEvent>)
    requires store.Valid()
    modifies store
    ensures store.Valid()
    ensures store.log == old(store.log) + HookWrites(taskId, events)
    ensures store.tasks == Replay(old(store.tasks), HookWrites(taskId, events))
  {
    for i := 0 to |events|
      invariant store.Valid()
      invariant store.log == old(store.log) + HookWrites(taskId, events[..i])
      invariant store.tasks == Replay(old(store.tasks), HookWrites(taskId, events[..i]))
    {
      ProgressHook(store, taskId, events[i]);
      assert events[..i + 1] == events[..i] + [events[i]];
      HookWritesSnoc(taskId, events[..i], events[i]);
      ReplayConcat(old(store.tasks), HookWrites(taskId, events[..i]), HookWrite(taskId, events[i]));
      AppendAssoc(old(store.log), HookWrites(taskId, events[..i]), HookWrite(taskId, events[i]));
    }
    assert events[..|events|] == events;
  }

  // ---------------------------------------------------------------- result path

  /** One directory visited by `os.walk`: its path and the names of its files. */
  datatype WalkEntry = WalkEntry(root: string, files: seq<string>)

  /** A file name the scan accepts as the task's download. */
  predicate IsCandidate(name: string, taskId: string) {
    StartsWith(name, taskId) && EndsWith(name, ".mp4")
  }

  /** The fixed name yt-dlp is asked to produce. */
  function ResultPath(dir: string, taskId: string): (p: string)
    ensures EndsWith(p, ".mp4")
  {
    EndsWithTrans(Join(dir, taskId + ".mp4"), taskId + ".mp4", ".mp4");
    Join(dir, taskId + ".mp4")
  }

  predicate NoCandidate(names: seq<string>, taskId: string) {
    forall j :: 0 <= j < |names| ==> !IsCandidate(names[j], taskId)
  }

  /** Position `j` holds the first candidate of `names`. */
  predicate FirstCandidateAt(names: seq<string>, taskId: string, j: int) {
    0 <= j < |names| && IsCandidate(names[j], taskId) && NoCandidate(names[..j], taskId)
  }

  /** Directory `i`, file `j` is the first candidate of the whole walk. */
  predicate FirstMatchAt(walk: seq<WalkEntry>, taskId: string, i: int, j: int) {
    0 <= i < |walk|
    && (forall k :: 0 <= k < i ==> NoCandidate(walk[k].files, taskId))
    && FirstCandidateAt(walk[i].files, taskId, j)
  }

  /** The first candidate in one directory, joined to its root. */
  function FirstCandidate(root: string, names: seq<string>, taskId: string): (r: Option<string>)
    ensures r.Some? ==> EndsWith(r.value, ".mp4")
    decreases |names|
  {
    if names == [] then None
    else if IsCandidate(names[0], taskId) then
      EndsWithTrans(Join(root, names[0]), names[0], ".mp4");
      Some(Join(root, names[0]))
    else FirstCandidate(root, names[1..], taskId)
  }

  /** The first candidate of the whole walk, in walk order. */
  function FirstMatch(walk: seq<WalkEntry>, taskId: string): (r: Option<string>)
    ensures r.Some? ==> EndsWith(r.value, ".mp4")
    decreases |walk|
  {
    if walk == [] then None
    else match FirstCandidate(walk[0].root, walk[0].files, taskId)
      case Some(p) => Some(p)
      case None => FirstMatch(walk[1..], taskId)
  }

  /** A list has no candidate iff its head is none and its tail has none. */
  lemma NoCandidateCons(names: seq<string>, taskId: string)
    requires names != []
    ensures NoCandidate(names, taskId) <==> !IsCandidate(names[0], taskId) && NoCandidate(names[1..], taskId)
  {
    assert forall j :: 0 < j < |names| ==> names[j] == names[1..][j - 1];
  }

  lemma {:induction false} FirstCandidateNone(root: string, names: seq<string>, taskId: string)
    ensures FirstCandidate(root, names, taskId).None? <==> NoCandidate(names, taskId)
    decreases |names|
  {
    if names != [] {
      FirstCandidateNone(root, names[1..], taskId);
      NoCandidateCons(names, taskId);
    }
  }

  /** The first candidate after a non-candidate head is one position further on. */
  lemma FirstCandidateAtCons(names: seq<string>, taskId: string, j: int)
    requires names != [] && !IsCandidate(names[0], taskId) && FirstCandidateAt(names[1..], taskId, j)
    ensures FirstCandidateAt(names, taskId, j + 1)
  {
    var prefix := names[..j + 1];
    assert prefix[0] == names[0] && prefix[1..] == names[1..][..j];
    NoCandidateCons(prefix, taskId);
  }

  lemma {:induction false} FirstCandidateSome(root: string, names: seq<string>, taskId: string)
    requires FirstCandidate(root, names, taskId).Some?
    ensures exists j :: FirstCandidateAt(names, taskId, j) && FirstCandidate(root, names, taskId).value == Join(root, names[j])
    decreases |names|
  {
    if IsCandidate(names[0], taskId) {
      assert FirstCandidateAt(names, taskId, 0) by {
        assert names[..0] == [];
      }
    } else {
      var tail := names[1..];
      FirstCandidateSome(root, tail, taskId);
      var j :| FirstCandidateAt(tail, taskId, j) && FirstCandidate(root, tail, taskId).value == Join(root, tail[j]);
      FirstCandidateAtCons(names, taskId, j);
      assert tail[j] == names[j + 1];
    }
  }

  /** The index of the first directory of the walk that holds a candidate,
      or `|walk|` when none does; the walk's result is that directory's. */
  function MatchDirectory(walk: seq<WalkEntry>, taskId: string): (i: nat)
    ensures i <= |walk|
    ensures forall k :: 0 <= k < i ==> NoCandidate(walk[k].files, taskId)
    ensures i < |walk| ==> FirstMatch(walk, taskId) == FirstCandidate(walk[i].root, walk[i].files, taskId)
    ensures i < |walk| <==> FirstMatch(walk, taskId).Some?
    decreases |walk|
  {
    if walk == [] then 0
    else if FirstCandidate(walk[0].root, walk[0].files, taskId).Some? then 0
    else
      FirstCandidateNone(walk[0].root, walk[0].files, taskId);
      var i := MatchDirectory(walk[1..], taskId);
      assert forall k :: 0 < k < |walk| ==> walk[k] == walk[1..][k - 1];
      i + 1
  }

  /** The scan finds a file exactly when some directory holds a candidate, and
      what it finds is the first candidate in walk order. */
  lemma FirstMatchSpec(walk: seq<WalkEntry>, taskId: string)
    ensures FirstMatch(walk, taskId).None? <==> forall i :: 0 <= i < |walk| ==> NoCandidate(walk[i].files, taskId)
    ensures FirstMatch(walk, taskId).Some? ==>
      exists i, j :: FirstMatchAt(walk, taskId, i, j) && FirstMatch(walk, taskId).value == Join(walk[i].root, walk[i].files[j])
  {
    var i := MatchDirectory(walk, taskId);
    if i < |walk| {
      var entry := walk[i];
      FirstCandidateNone(entry.root, entry.files, taskId);
      FirstCandidateSome(entry.root, entry.files, taskId);
      var j :| FirstCandidateAt(entry.files, taskId, j) && FirstCandidate(entry.root, entry.files, taskId).value == Join(entry.root, entry.files[j]);
      assert FirstMatchAt(walk, taskId, i, j);
    }
  }

  /** The path the downloader returns after a successful fetch: the fixed
      name if it exists, else the first scanned candidate, else still the
      fixed name. */
  function ResolvedPath(files: set<string>, dir: string, taskId: string, walk: seq<WalkEntry>): (p: string)
    ensures EndsWith(p, ".mp4")
    ensures ResultPath(dir, taskId) in files ==> p == ResultPath(dir, taskId)
    ensures p != ResultPath(dir, taskId) ==> FirstMatch(walk, taskId) == Some(p)
    ensures ResultPath(dir, taskId) !in files && FirstMatch(walk, taskId).Some? ==> p == FirstMatch(walk, taskId).value
    ensures ResultPath(dir, taskId) !in files && FirstMatch(walk, taskId).None? ==> p == ResultPath(dir, taskId)
  {
    if ResultPath(dir, taskId) in files then ResultPath(dir, taskId)
    else match FirstMatch(walk, taskId)
      case Some(p) => p
      case None => ResultPath(dir, taskId)
  }

  /** The lookup of the merged file: the fixed name, else a scan of the
      directory tree that returns at the first candidate. */
  method ResolveResultPath(fs: FileSystem, outputDir: string, taskId: string, walk: seq<WalkEntry>) returns (path: string)
    ensures path == ResolvedPath(fs.files, outputDir, taskId, walk)
  {
    var resultFile := ResultPath(outputDir, taskId);
    if !fs.Exists(resultFile) {
      var i := 0;
      while i < |walk|
        invariant 0 <= i <= |walk|
        invariant FirstMatch(walk, taskId) == FirstMatch(walk[i..], taskId)
      {
        var entry := walk[i];
        assert walk[i..][0] == entry && walk[i..][1..] == walk[i + 1..];
        var j := 0;
        while j < |entry.files|
          invariant 0 <= j <= |entry.files|
          invariant FirstCandidate(entry.root, entry.files, taskId) == FirstCandidate(entry.root, entry.files[j..], taskId)
        {
          var f := entry.files[j];
          assert entry.files[j..][0] == f && entry.files[j..][1..] == entry.files[j + 1..];
          if StartsWith(f, taskId) && EndsWith(f, ".mp4") {
            return Join(entry.root, f);
          }
          j := j + 1;
        }
        i := i + 1;
      }
    }
    return resultFile;
  }

  /** yt-dlp's merge output name: a ".webm" or ".mkv" name is rewritten with
      `str.replace`, which rewrites every occurrence, not only the suffix. The
      downloader computes this name and never uses it. */
  function MergedName(filename: string): (r: string)
    ensures EndsWith(filename, ".webm") || EndsWith(filename, ".mkv") ==> EndsWith(r, ".mp4")
    ensures !EndsWith(filename, ".webm") && !EndsWith(filename, ".mkv") ==> r == filename
  {
    if EndsWith(filename, ".webm") then
      ReplaceKeepsSuffix(filename, ".webm", ".mp4");
      ReplaceAll(filename, ".webm", ".mp4")
    else if EndsWith(filename, ".mkv") then
      ReplaceKeepsSuffix(filename, ".mkv", ".mp4");
      ReplaceAll(filename, ".mkv", ".mp4")
    else filename
  }

  lemma MergedNameRewritesEveryOccurrence()
    ensures MergedName("a.webm.webm") == "a.mp4.mp4"
  {
    assert EndsWith("a.webm.webm", ".webm");
    assert "a.webm.webm"[..5][0] == 'a';
    assert "a.webm.webm"[1..][..5] == ".webm";
    assert "a.webm.webm"[6..][..5] == ".webm";
    assert ReplaceAll("a.webm.webm"[1..][5..], ".webm", ".mp4") == ".mp4";
  }

  // ---------------------------------------------------------------- lock recovery

  /** The temporary merge output left behind when the final rename fails. */
  function TempPath(dir: string, taskId: string): (p: string)
    ensures EndsWith(p, ".mp4")
  {
    EndsWithTrans(Join(dir, taskId + ".temp.mp4"), taskId + ".temp.mp4", ".mp4");
    Join(dir, taskId + ".temp.mp4")
  }

  /** The failure signature of the locked temporary merge file on Windows. */
  predicate IsLockedMerge(message: string) {
    Contains(message, "WinError 32") && Contains(message, ".temp.mp4")
  }

  /** The files after the recovery attempt: only a successful rename changes them. */
  function FilesAfterRecovery(files: set<string>, message: string, dir: string, taskId: string,
                              renameSucceeds: bool): set<string>
  {
    if IsLockedMerge(message) && TempPath(dir, taskId) in files && renameSucceeds
    then files - {TempPath(dir, taskId)} + {ResultPath(dir, taskId)}
    else files
  }

  /** The path the recovery returns, if it applies. */
  function Recovered(files: set<string>, message: string, dir: string, taskId: string,
                     renameSucceeds: bool): (r: Option<string>)
    ensures r.Some? ==> IsLockedMerge(message)
    ensures r.Some? ==> r.value in FilesAfterRecovery(files, message, dir, taskId, renameSucceeds)
    ensures r.Some? ==> r.value == ResultPath(dir, taskId) || r.value == TempPath(dir, taskId)
    ensures r.None? <==> !IsLockedMerge(message) || (TempPath(dir, taskId) !in files && ResultPath(dir, taskId) !in files)
    ensures IsLockedMerge(message) && TempPath(dir, taskId) in files ==>
      r == Some(if renameSucceeds then ResultPath(dir, taskId) else TempPath(dir, taskId))
    ensures IsLockedMerge(message) && TempPath(dir, taskId) !in files && ResultPath(dir, taskId) in files ==>
      r == Some(ResultPath(dir, taskId))
  {
    if !IsLockedMerge(message) then None
    else if TempPath(dir, taskId) in files then
      Some(if renameSucceeds then ResultPath(dir, taskId) else TempPath(dir, taskId))
    else if ResultPath(dir, taskId) in files then Some(ResultPath(dir, taskId))
    else None
  }

  /** The recovery branch: rename the temporary file to the final name, fall
      back to the temporary file if the rename fails, or accept an existing
      final file. The one-second wait before it is not modelled. */
  method RecoverLockedMerge(fs: FileSystem, message: string, outputDir: string, taskId: string,
                            renameSucceeds: bool) returns (r: Option<string>)
    modifies fs
    ensures r == Recovered(old(fs.files), message, outputDir, taskId, renameSucceeds)
    ensures fs.files == FilesAfterRecovery(old(fs.files), message, outputDir, taskId, renameSucceeds)
  {
    r := None;
    if Contains(message, "WinError 32") && Contains(message, ".temp.mp4") {
      var tempFile := TempPath(outputDir, taskId);
      var finalFile := ResultPath(outputDir, taskId);
      if fs.Exists(tempFile) {
        var renamed := fs.Rename(tempFile, finalFile, renameSucceeds);
        if renamed {
          r := Some(finalFile);
        } else {
          r := Some(tempFile);
        }
      } else if fs.Exists(finalFile) {
        r := Some(finalFile);
      }
    }
  }

  // ---------------------------------------------------------------- download_video

  /** The outcome of yt-dlp's `extract_info` (with `prepare_filename`): the
      name it reports, or the text of the exception it raised. */
  datatype FetchRun = Fetched(filename: string) | FetchError(message: string)

  /** What `download_video` returns or raises. */
  function DownloadOutcome(files: set<string>, dir: string, taskId: string, walk: seq<WalkEntry>,
                           fetch: FetchRun, renameSucceeds: bool): (r: Result<string>)
    ensures r.Success? ==> EndsWith(r.value, ".mp4") && r.value != ""
    ensures fetch.Fetched? ==> r == Success(ResolvedPath(files, dir, taskId, walk))
    ensures r.Failure? ==> fetch.FetchError? && r.error == fetch.message
    ensures fetch.FetchError? && !IsLockedMerge(fetch.message) ==> r == Failure(fetch.message)
    ensures fetch.FetchError? ==>
      (r.Success? <==> Recovered(files, fetch.message, dir, taskId, renameSucceeds).Some?)
    ensures fetch.FetchError? && r.Success? ==> r.value == Recovered(files, fetch.message, dir, taskId, renameSucceeds).value
  {
    match fetch
    case Fetched(_) => Success(ResolvedPath(files, dir, taskId, walk))
    case FetchError(message) =>
      match Recovered(files, message, dir, taskId, renameSucceeds)
      case Some(p) => Success(p)
      case None => Failure(message)
  }

  function FilesAfterDownload(files: set<string>, dir: string, taskId: string, fetch: FetchRun,
                              renameSucceeds: bool): set<string>
  {
    if fetch.FetchError? then FilesAfterRecovery(files, fetch.message, dir, taskId, renameSucceeds) else files
  }

  /** The store writes of `download_video`: the hook's, then "failed" with the
      exception text when it raises. */
  function DownloadWrites(taskId: string, events: seq<HookEvent>, outcome: Result<string>): seq<Write> {
    if outcome.Failure? then HookWrites(taskId, events) + [Write(taskId, Failed, 0.0, None, Some(outcome.error))]
    else HookWrites(taskId, events)
  }

  /** `download_video`: yt-dlp runs, calling the progress hook once per event;
      then the merged file is located, or the lock failure recovered, or the
      task marked failed and the exception raised again. */
  method DownloadVideo(store: TaskStore, fs: FileSystem, taskId: string, outputDir: string,
                       events: seq<HookEvent>, fetch: FetchRun, walk: seq<WalkEntry>,
                       renameSucceeds: bool) returns (r: Result<string>)
    requires store.Valid()
    modifies store, fs
    ensures store.Valid()
    ensures r == DownloadOutcome(old(fs.files), outputDir, taskId, walk, fetch, renameSucceeds)
    ensures fs.files == FilesAfterDownload(old(fs.files), outputDir, taskId, fetch, renameSucceeds)
    ensures store.log == old(store.log) + DownloadWrites(taskId, events, r)
    ensures store.tasks == Replay(old(store.tasks), DownloadWrites(taskId, events, r))
  {
    HookCalls(store, taskId, events);
    match fetch {
      case Fetched(filename) =>
        var merged := MergedName(filename);
        var path := ResolveResultPath(fs, outputDir, taskId, walk);
        r := Success(path);
      case FetchError(message) =>
        var recovered := RecoverLockedMerge(fs, message, outputDir, taskId, renameSucceeds);
        if recovered.Some? {
          r := Success(recovered.value);
        } else {
          ghost var hooked := store.tasks;
          var failure := Write(taskId, Failed, 0.0, None, Some(message));
          store.UpdateTask(taskId, Failed, error := Some(message));
          r := Failure(message);
          ReplayOne(hooked, failure);
          ReplayConcat(old(store.tasks), HookWrites(taskId, events), [failure]);
        }
    }
  }
}

=== FILE: files.dfy ===
/** The part of the local file system the backend touches: which paths exist.
    Whether a rename or a removal is refused by the operating system (a file
    lock, a permission) is not decided here; callers pass it in. */
module Files {

  class FileSystem {
    /** The paths that currently exist. */
    var files: set<string>

    constructor (initial: set<string>)
      ensures files == initial
    {
      files := initial;
    }

    /** `os.path.exists(path)`. */
    predicate Exists(path: string)
      reads this
    {
      path in files
    }

    /** `os.rename(src, dst)`: raises (ok false, nothing changes) when `src`
        is missing or the system refuses. */
    method Rename(src: string, dst: string, permitted: bool) returns (ok: bool)
      modifies this
      ensures ok == (permitted && src in old(files))
      ensures files == if ok then old(files) - {src} + {dst} else old(files)
    {
      ok := permitted && src in files;
      if ok {
        files := files - {src} + {dst};
      }
    }

    /** `os.remove(path)`: raises (removed false, nothing changes) when the
        path is missing or the system refuses. */
    method Remove(path: string, permitted: bool) returns (removed: bool)
      modifies this
      ensures removed == (permitted && path in old(files))
      ensures files == old(files) - (if removed then {path} else {})
    {
      removed := permitted && path in files;
      if removed {
        files := files - {path};
      }
    }

    /** An external tool writes (or overwrites) `path`. */
    method Create(path: string)
      modifies this
      ensures files == old(files) + {path}
    {
      files := files + {path};
    }
  }
}

=== FILE: models.dfy ===
/** The request bodies the API accepts (backend/models.py). */
module Models {
  import opened Wrappers

  /** A crop rectangle; every field may be left out. */
  datatype CropOptions = CropOptions(
    width: Option<int> := None,
    height: Option<int> := None,
    x: Option<int> := None,
    y: Option<int> := None)

  /** A download request: the source URL, optional trim times and an optional crop. */
  datatype DownloadRequest = DownloadRequest(
    url: string,
    startTime: Option<string> := None,
    endTime: Option<string> := None,
    crop: Option<CropOptions> := None)
}

=== FILE: processor.dfy ===
/** The editing service (backend/services/processor.py): it turns the trim
    and crop request into one FFmpeg invocation, runs it (an external call
    whose outcome is a parameter here), and translates its two failure kinds
    into two error messages. */
module Processor {
  import opened Wrappers
  import opened Text
  import opened Files

  /** The arguments of the crop filter: offsets first, then the size. */
  datatype Crop = Crop(x: int, y: int, width: int, height: int)

  /** The FFmpeg invocation: input file with its options, an optional crop
      filter, and the output file with its options. */
  datatype Plan = Plan(
    input: string,
    inputOptions: map<string, string>,
    crop: Option<Crop>,
    output: string,
    outputOptions: map<string, string>)

  /** A trim time as FFmpeg receives it: every '.' becomes ':'. */
  function TimeOption(t: string): (r: string)
    ensures |r| == |t|
    ensures forall i :: 0 <= i < |t| ==> r[i] == (if t[i] == '.' then ':' else t[i])
    ensures '.' !in r
  {
    ReplaceSingleChar(t, '.', ':');
    ReplaceAll(t, ".", ":")
  }

  /** `crop_x or 0`: an absent offset (and an offset of 0) is 0. */
  function OrZero(v: Option<int>): int {
    if v.Some? then v.value else 0
  }

  /** The options of the FFmpeg input: a start and an end time, each only when
      given and non-empty. */
  function InputOptions(startTime: Option<string>, endTime: Option<string>): (m: map<string, string>)
    ensures m.Keys <= {"ss", "to"}
    ensures "ss" in m <==> Truthy(startTime)
    ensures "to" in m <==> Truthy(endTime)
    ensures "ss" in m ==> m["ss"] == TimeOption(startTime.value)
    ensures "to" in m ==> m["to"] == TimeOption(endTime.value)
  {
    var trimmed := if Truthy(startTime) then map["ss" := TimeOption(startTime.value)] else map[];
    if Truthy(endTime) then trimmed["to" := TimeOption(endTime.value)] else trimmed
  }

  const ReencodeOptions: map<string, string> := map["vcodec" := "libx264", "acodec" := "copy"]
  const StreamCopyOptions: map<string, string> := map["c" := "copy"]

  /** The invocation `process_video` builds: trim options on the input, a crop
      exactly when both width and height are given (offsets default to 0),
      re-encoding the video when cropping and copying every stream otherwise. */
  function BuildPlan(inputPath: string, outputPath: string, startTime: Option<string>, endTime: Option<string>,
                     cropWidth: Option<int>, cropHeight: Option<int>, cropX: Option<int>, cropY: Option<int>): (p: Plan)
    ensures p.input == inputPath && p.output == outputPath
    ensures p.inputOptions == InputOptions(startTime, endTime)
    ensures p.crop.Some? <==> cropWidth.Some? && cropHeight.Some?
    ensures p.crop.Some? ==> p.crop.value == Crop(OrZero(cropX), OrZero(cropY), cropWidth.value, cropHeight.value)
    ensures p.crop.Some? ==> p.outputOptions == ReencodeOptions
    ensures p.crop.None? ==> p.outputOptions == StreamCopyOptions
  {
    var crop := if cropWidth.Some? && cropHeight.Some? then
      Some(Crop(OrZero(cropX), OrZero(cropY), cropWidth.value, cropHeight.value))
    else None;
    Plan(inputPath, InputOptions(startTime, endTime), crop, outputPath,
         if crop.Some? then ReencodeOptions else StreamCopyOptions)
  }

  /** Whether the invocation re-encodes the video stream. */
  predicate Reencodes(p: Plan) {
    "vcodec" in p.outputOptions
  }

  /** A plan re-encodes exactly when it crops; otherwise every stream is copied. */
  lemma ReencodesIffCrops(inputPath: string, outputPath: string, startTime: Option<string>, endTime: Option<string>,
                          cropWidth: Option<int>, cropHeight: Option<int>, cropX: Option<int>, cropY: Option<int>)
    ensures var p := BuildPlan(inputPath, outputPath, startTime, endTime, cropWidth, cropHeight, cropX, cropY);
      (Reencodes(p) <==> p.crop.Some?) && (!Reencodes(p) ==> p.outputOptions["c"] == "copy")
  {
    assert "vcodec" !in StreamCopyOptions;
  }

  // ---------------------------------------------------------------- running FFmpeg

  /** The outcome of `ffmpeg.run`: it finished (and wrote its output or not),
      the binary is missing, or it failed with its captured stderr and the
      exception's own description. */
  datatype FfmpegRun = Ran(wroteOutput: bool) | NotInstalled | RunError(stderr: string, description: string)

  const MissingMessage := "FFmpeg is missing from the system environment"
  const RunErrorPrefix := "Failed to process video: "

  /** The captured stderr when there is any, else the exception's description. */
  function RunErrorDetail(stderr: string, description: string): string {
    if stderr != "" then stderr else description
  }

  /** What `process_video` returns or raises. */
  function RunOutcome(run: FfmpegRun, outputPath: string): (r: Result<string>)
    ensures r.Success? <==> run.Ran?
    ensures r.Success? ==> r.value == outputPath
    ensures run.NotInstalled? ==> r.error == MissingMessage
    ensures run.RunError? ==>
      StartsWith(r.error, RunErrorPrefix) && EndsWith(r.error, RunErrorDetail(run.stderr, run.description))
    ensures run.RunError? ==> |r.error| == |RunErrorPrefix| + |RunErrorDetail(run.stderr, run.description)|
    ensures r.Failure? ==> r.error != ""
  {
    match run
    case Ran(_) => Success(outputPath)
    case NotInstalled => Failure(MissingMessage)
    case RunError(stderr, description) =>
      EndsWithConcat(RunErrorPrefix, RunErrorDetail(stderr, description), RunErrorDetail(stderr, description));
      Failure(RunErrorPrefix + RunErrorDetail(stderr, description))
  }

  /** A missing binary and a failed run can never be told apart wrongly: the
      two messages differ whatever FFmpeg printed. */
  lemma ErrorKindsDistinct(outputPath: string, other: string, stderr: string, description: string)
    ensures RunOutcome(NotInstalled, outputPath).error != RunOutcome(RunError(stderr, description), other).error
  {
    var e := RunOutcome(RunError(stderr, description), other).error;
    assert e[1] == RunErrorPrefix[1] == 'a';
    assert MissingMessage[1] == 'F';
  }

  /** The files after the run: only a run that wrote its output adds it. */
  function FilesAfterRun(files: set<string>, run: FfmpegRun, outputPath: string): set<string> {
    if run == Ran(true) then files + {outputPath} else files
  }

  /** `process_video`: the options are gathered step by step, the invocation
      is run, and its failure translated. The plan is returned beside the
      outcome so that the invocation can be stated. */
  method ProcessVideo(fs: FileSystem, inputPath: string, outputPath: string,
                      startTime: Option<string>, endTime: Option<string>,
                      cropWidth: Option<int>, cropHeight: Option<int>, cropX: Option<int>, cropY: Option<int>,
                      run: FfmpegRun) returns (plan: Plan, r: Result<string>)
    modifies fs
    ensures plan == BuildPlan(inputPath, outputPath, startTime, endTime, cropWidth, cropHeight, cropX, cropY)
    ensures r == RunOutcome(run, outputPath)
    ensures fs.files == FilesAfterRun(old(fs.files), run, outputPath)
  {
    var inputKwargs: map<string, string> := map[];
    if startTime.Some? && startTime.value != "" {
      inputKwargs := inputKwargs["ss" := TimeOption(startTime.value)];
    }
    if endTime.Some? && endTime.value != "" {
      inputKwargs := inputKwargs["to" := TimeOption(endTime.value)];
    }
    var reencodeVideo := false;
    var crop: Option<Crop> := None;
    if cropWidth.Some? && cropHeight.Some? {
      reencodeVideo := true;
      crop := Some(Crop(OrZero(cropX), OrZero(cropY), cropWidth.value, cropHeight.value));
    }
    var outputKwargs: map<string, string> := map[];
    if reencodeVideo {
      outputKwargs := outputKwargs["vcodec" := "libx264"];
      outputKwargs := outputKwargs["acodec" := "copy"];
    } else {
      outputKwargs := outputKwargs["c" := "copy"];
    }
    plan := Plan(inputPath, inputKwargs, crop, outputPath, outputKwargs);

    match run {
      case Ran(wroteOutput) =>
        if wroteOutput {
          fs.Create(outputPath);
        }
        r := Success(outputPath);
      case NotInstalled =>
        r := Failure(MissingMessage);
      case RunError(stderr, description) =>
        var errMsg := if stderr != "" then stderr else description;
        r := Failure(RunErrorPrefix + errMsg);
    }
  }
}

=== FILE: state.dfy ===
/** The in-memory task store (backend/state.py): one record per job, keyed by
    task id, read and written through `get_task` and `update_task`. */
module State {
  import opened Wrappers
  import opened Text

  /** The status words the backend writes. */
  datatype Status = Queued | Downloading | Processing | Completed | Failed
  {
    /** The word as stored and reported by the API. */
    function Name(): string {
      match this
      case Queued => "queued"
      case Downloading => "downloading"
      case Processing => "processing"
      case Completed => "completed"
      case Failed => "failed"
    }
  }

  /** One job record: status, progress in percent, the deliverable file and the failure text. */
  datatype Task = Task(status: Status, progress: real, resultFile: Option<string>, error: Option<string>)

  /** The record `get_task` creates for an id it has not seen. */
  const NewTask: Task := Task(Queued, 0.0, None, None)

  /** One `update_task(id, status, progress, result_file, error)` call, by its arguments. */
  datatype Write = Write(id: string, status: Status, progress: real, resultFile: Option<string>, error: Option<string>)

  /** Result file and error are only ever stored when truthy, so a stored one is never empty. */
  predicate WellFormed(t: Task) {
    (t.resultFile.Some? ==> t.resultFile.value != "") && (t.error.Some? ==> t.error.value != "")
  }

  predicate AllWellFormed(tasks: map<string, Task>) {
    forall id :: id in tasks ==> WellFormed(tasks[id])
  }

  /** The record `get_task` yields: the stored one, or a fresh queued one. */
  function Lookup(tasks: map<string, Task>, id: string): Task {
    if id in tasks then tasks[id] else NewTask
  }

  /** The field rules of `update_task` for one record: status and progress are
      always overwritten, result file and error only by a truthy argument. */
  function Overwrite(t: Task, w: Write): (u: Task)
    ensures u.status == w.status && u.progress == w.progress
    ensures Truthy(w.resultFile) ==> u.resultFile == w.resultFile
    ensures u.resultFile != t.resultFile ==> Truthy(w.resultFile)
    ensures Truthy(w.error) ==> u.error == w.error
    ensures u.error != t.error ==> Truthy(w.error)
    ensures t.resultFile.Some? ==> u.resultFile.Some?
    ensures t.error.Some? ==> u.error.Some?
    ensures WellFormed(t) ==> WellFormed(u)
  {
    t.(status := w.status,
       progress := w.progress,
       resultFile := if Truthy(w.resultFile) then w.resultFile else t.resultFile,
       error := if Truthy(w.error) then w.error else t.error)
  }

  /** The store after one `update_task` call: the id is present afterwards,
      no entry is removed and no other record changes. */
  function Apply(tasks: map<string, Task>, w: Write): (r: map<string, Task>)
    ensures r.Keys == tasks.Keys + {w.id}
    ensures forall k :: k in tasks && k != w.id ==> r[k] == tasks[k]
    ensures r[w.id] == Overwrite(Lookup(tasks, w.id), w)
    ensures AllWellFormed(tasks) ==> AllWellFormed(r)
  {
    tasks[w.id := Overwrite(Lookup(tasks, w.id), w)]
  }

  /** The store after a series of `update_task` calls, oldest first. */
  function Replay(tasks: map<string, Task>, writes: seq<Write>): map<string, Task>
    decreases |writes|
  {
    if writes == [] then tasks else Replay(Apply(tasks, writes[0]), writes[1..])
  }

  lemma {:induction false} ReplayConcat(tasks: map<string, Task>, a: seq<Write>, b: seq<Write>)
    ensures Replay(tasks, a + b) == Replay(Replay(tasks, a), b)
    decreases |a|
  {
    if a != [] {
      assert (a + b)[0] == a[0];
      assert (a + b)[1..] == a[1..] + b;
      ReplayConcat(Apply(tasks, a[0]), a[1..], b);
    } else {
      assert a + b == b;
    }
  }

  lemma ReplayOne(tasks: map<string, Task>, w: Write)
    ensures Replay(tasks, [w]) == Apply(tasks, w)
  {
    assert [w][1..] == [];
  }

  lemma AppendAssoc(a: seq<Write>, b: seq<Write>, c: seq<Write>)
    ensures a + b + c == a + (b + c)
  {
  }

  lemma ReplaySnoc(tasks: map<string, Task>, writes: seq<Write>, w: Write)
    ensures Replay(tasks, writes + [w]) == Apply(Replay(tasks, writes), w)
  {
    ReplayConcat(tasks, writes, [w]);
    ReplayOne(Replay(tasks, writes), w);
  }

  /** Writes that only report status and progress of one task. */
  predicate ProgressOnly(id: string, writes: seq<Write>) {
    forall i :: 0 <= i < |writes| ==>
      writes[i].id == id && !Truthy(writes[i].resultFile) && !Truthy(writes[i].error)
  }

  /** Replaying status/progress-only writes for a stored id leaves every other
      record, the set of ids, and that record's result file and error alone;
      the record ends with the last write's status and progress. */
  lemma {:induction false} ReplayProgressOnly(tasks: map<string, Task>, id: string, writes: seq<Write>)
    requires id in tasks && ProgressOnly(id, writes)
    ensures var r := Replay(tasks, writes);
      && r.Keys == tasks.Keys
      && (forall k :: k in tasks && k != id ==> r[k] == tasks[k])
      && r[id].resultFile == tasks[id].resultFile
      && r[id].error == tasks[id].error
      && (writes != [] ==> r[id].status == writes[|writes| - 1].status && r[id].progress == writes[|writes| - 1].progress)
    decreases |writes|
  {
    if writes != [] {
      var next := Apply(tasks, writes[0]);
      assert ProgressOnly(id, writes[1..]) by {
        forall i | 0 <= i < |writes[1..]| ensures writes[1..][i] == writes[i + 1] { }
      }
      ReplayProgressOnly(next, id, writes[1..]);
      if |writes| > 1 {
        assert writes[1..][|writes[1..]| - 1] == writes[|writes| - 1];
      }
    }
  }

  /** The `tasks_status` dictionary with its two accessors. */
  class TaskStore {
    /** task id -> record */
    var tasks: map<string, Task>
    /** Every `update_task` call made so far, oldest first. */
    ghost var log: seq<Write>

    ghost predicate Valid()
      reads this
    {
      AllWellFormed(tasks)
    }

    constructor ()
      ensures Valid() && tasks == map[] && log == []
    {
      tasks := map[];
      log := [];
    }

    /** `get_task`: return the record, first inserting a queued one on a miss. */
    method GetTask(id: string) returns (t: Task)
      requires Valid()
      modifies this
      ensures Valid() && log == old(log)
      ensures id in old(tasks) ==> tasks == old(tasks) && t == old(tasks)[id]
      ensures id !in old(tasks) ==> tasks == old(tasks)[id := NewTask] && t == NewTask
      ensures id in tasks && t == tasks[id]
    {
      if id !in tasks {
        tasks := tasks[id := NewTask];
      }
      t := tasks[id];
    }

    /** `update_task`: overwrite status and progress (0.0 when omitted); store
        result file and error only when they are truthy. */
    method UpdateTask(id: string, status: Status, progress: real := 0.0,
                      resultFile: Option<string> := None, error: Option<string> := None)
      requires Valid()
      modifies this
      ensures Valid()
      ensures tasks == Apply(old(tasks), Write(id, status, progress, resultFile, error))
      ensures log == old(log) + [Write(id, status, progress, resultFile, error)]
    {
      var task := GetTask(id);
      var w := Write(id, status, progress, resultFile, error);
      tasks := tasks[id := Overwrite(task, w)];
      log := log + [w];
    }
  }
}

=== FILE: text.dfy ===
/** The string and path operations of Python's standard library that the
    backend relies on: `str.startswith`, `str.endswith`, the `in` operator on
    strings, `str.replace`, and POSIX `os.path.join` / `os.path.splitext`. */
module Text {
  import opened Wrappers

  /** Python truthiness of an `Optional[str]`: neither `None` nor `""`. */
  predicate Truthy(s: Option<string>) {
    s.Some? && s.value != ""
  }

  predicate StartsWith(s: string, prefix: string) {
    prefix <= s
  }

  predicate EndsWith(s: string, suffix: string) {
    |suffix| <= |s| && s[|s| - |suffix|..] == suffix
  }

  /** `sub in s`. */
  predicate Contains(s: string, sub: string)
    decreases |s|
  {
    sub <= s || (s != [] && Contains(s[1..], sub))
  }

  /** `s.replace(pat, rep)`: every non-overlapping occurrence of `pat`,
      scanning from the left, is replaced by `rep`. */
  function ReplaceAll(s: string, pat: string, rep: string): string
    requires pat != ""
    decreases |s|
  {
    if |s| < |pat| then s
    else if s[..|pat|] == pat then rep + ReplaceAll(s[|pat|..], pat, rep)
    else [s[0]] + ReplaceAll(s[1..], pat, rep)
  }

  /** Replacing one character by another keeps the length and changes
      exactly the positions that held the replaced character. */
  lemma {:induction false} ReplaceSingleChar(s: string, a: char, b: char)
    ensures |ReplaceAll(s, [a], [b])| == |s|
    ensures forall i :: 0 <= i < |s| ==> ReplaceAll(s, [a], [b])[i] == (if s[i] == a then b else s[i])
    decreases |s|
  {
    if s != [] {
      ReplaceSingleChar(s[1..], a, b);
      if s[..1] == [a] {
        assert ReplaceAll(s, [a], [b]) == [b] + ReplaceAll(s[1..], [a], [b]);
      } else {
        assert ReplaceAll(s, [a], [b]) == [s[0]] + ReplaceAll(s[1..], [a], [b]);
      }
    }
  }

  /** A pattern whose first character occurs nowhere else in it cannot
      overlap itself (".webm", ".mkv"). */
  predicate HeadUnique(pat: string) {
    pat != [] && forall k :: 0 < k < |pat| ==> pat[k] != pat[0]
  }

  lemma EndsWithConcat(a: string, b: string, suffix: string)
    requires EndsWith(b, suffix)
    ensures EndsWith(a + b, suffix)
  {
    assert (a + b)[|a + b| - |suffix|..] == b[|b| - |suffix|..];
  }

  /** When `s` ends with a self-overlap-free pattern, `s.replace(pat, rep)`
      ends with `rep`: the final occurrence is always one of those replaced. */
  lemma {:induction false} ReplaceKeepsSuffix(s: string, pat: string, rep: string)
    requires HeadUnique(pat) && EndsWith(s, pat)
    ensures EndsWith(ReplaceAll(s, pat, rep), rep)
    decreases |s|
  {
    var n := |pat|;
    if s[..n] == pat {
      var t := s[n..];
      assert ReplaceAll(s, pat, rep) == rep + ReplaceAll(t, pat, rep);
      if t == [] {
        assert ReplaceAll(s, pat, rep) == rep + [];
      } else {
        // the suffix occurrence cannot overlap the prefix one
        var p := |s| - n;
        assert s[p] == pat[0];
        assert forall i :: 0 <= i < n ==> s[i] == pat[i];
        assert |t| >= n;
        assert t[|t| - n..] == s[|s| - n..];
        ReplaceKeepsSuffix(t, pat, rep);
        EndsWithConcat(rep, ReplaceAll(t, pat, rep), rep);
      }
    } else {
      assert |s| > n;
      assert s[1..][|s| - 1 - n..] == s[|s| - n..];
      ReplaceKeepsSuffix(s[1..], pat, rep);
      assert ReplaceAll(s, pat, rep) == [s[0]] + ReplaceAll(s[1..], pat, rep);
      EndsWithConcat([s[0]], ReplaceAll(s[1..], pat, rep), rep);
    }
  }

  lemma EndsWithTrans(a: string, b: string, c: string)
    requires EndsWith(a, b) && EndsWith(b, c)
    ensures EndsWith(a, c)
  {
    assert a[|a| - |c|..] == a[|a| - |b|..][|b| - |c|..];
  }

  /** `os.path.join(dir, name)` with the POSIX separator: an absolute `name`
      replaces `dir`; otherwise a '/' is inserted unless `dir` is empty or
      already ends with one. */
  function Join(dir: string, name: string): (p: string)
    ensures EndsWith(p, name)
    ensures name != "" ==> p != ""
    ensures StartsWith(name, "/") ==> p == name
    ensures !StartsWith(name, "/") ==> StartsWith(p, dir)
    ensures !StartsWith(name, "/") ==> p == dir + name || p == dir + "/" + name
  {
    if StartsWith(name, "/") then name
    else if dir == "" || EndsWith(dir, "/") then
      EndsWithConcat(dir, name, name);
      dir + name
    else
      EndsWithConcat(dir + "/", name, name);
      dir + "/" + name
  }

  /** The index of the last `c` in `s`, or -1 (`str.rfind`). */
  function LastIndexOf(s: string, c: char): (i: int)
    ensures -1 <= i < |s|
    ensures i >= 0 ==> s[i] == c
    ensures forall j :: i < j < |s| ==> s[j] != c
    decreases |s|
  {
    if s == [] then -1
    else if s[|s| - 1] == c then |s| - 1
    else LastIndexOf(s[..|s| - 1], c)
  }

  /** `os.path.splitext(p)[1]`: the extension of the last path component,
      starting at its last '.', unless that component is only dots before it. */
  function Ext(p: string): (e: string)
    ensures e == "" || (EndsWith(p, e) && e[0] == '.' && '/' !in e && '.' !in e[1..])
    ensures e == "" <==> !exists i, k :: LastIndexOf(p, '/') < k < i < |p| && p[i] == '.' && p[k] != '.'
    ensures e != "" ==> e == p[LastIndexOf(p, '.')..]
  {
    var sep := LastIndexOf(p, '/');
    var dot := LastIndexOf(p, '.');
    if dot > sep && exists k :: sep < k < dot && p[k] != '.' then p[dot..] else ""
  }

  /** A name such as "dir/abc.mp4" has the extension ".mp4". */
  lemma ExtOfMp4(p: string)
    requires EndsWith(p, ".mp4") && |p| >= 5 && p[|p| - 5] != '.' && p[|p| - 5] != '/'
    ensures Ext(p) == ".mp4"
  {
    var n := |p|;
    assert p[n - 4..] == ".mp4";
    assert p[n - 4] == '.' && p[n - 3] == 'm' && p[n - 2] == 'p' && p[n - 1] == '4';
    var dot := LastIndexOf(p, '.');
    var sep := LastIndexOf(p, '/');
    assert dot == n - 4;
    assert sep < n - 5;
    assert sep < n - 5 < dot && p[n - 5] != '.';
  }
}

=== FILE: wrappers.dfy ===
/** Optional values and results of operations that may raise. */
module Wrappers {

  /** Python's `Optional[T]`: a value or `None`. */
  datatype Option<+T> = None | Some(value: T)

  /** The outcome of a call that either returns a value or raises an exception;
      the failure carries the exception's text, `str(e)`. */
  datatype Result<+R> = Success(value: R) | Failure(error: string)
}
